=== FILE: README.md ===
# Curation core of the Combinato spike sorter GUI

This project models the part of Combinato's manual curation window
(`combinato/guisort/sorter.py`) that changes a sorting session. A session
holds *groups* of *clusters*. It has two views of them: `groupsByName`, each
group's clusters in list order, and `groupsById`, each group's numeric id,
name and type (artifact, multi-unit, single-unit or unclassified). The window
keeps a *dirty* flag while there are unsaved changes. It also keeps a job
list, a sorting label and the index of the open job.

The model has six modules:

- `Wrappers`: an `Option` type.
- `PyBuiltins`: the Python 2 behaviour the handlers depend on:
  - `sorted()` on group names, which is lexicographic character order;
  - `sorted()` on integer ids;
  - whether `int()` accepts a name;
  - list indexing, where a negative index counts from the end.
- `Session`: the session's data. The name and id views are tied together by
  `WellFormed`.
- `Curation`: each command stated as a function over the name view:
  - merging two groups, and merge-all;
  - popping and appending the selected clusters;
  - setting a group's type;
  - the argmin loop of auto-assignment.
  Beside them are lemmas for the properties they keep: conservation of
  clusters, idempotence, the reserved groups left alone, a unique first
  minimiser.
- `Selectors`: what the display code computes from a session:
  - the next-group rotation;
  - the radio button a type selects;
  - the ids the assignment plot shows;
  - the group list in id order and the entry it re-selects;
  - the inter-spike intervals the "mark cluster" view plots.
- `Sorter`: the class `SpikeSorter`. Its fields are the window state, and its
  methods are the handlers that update it in place. The methods that edit
  groups are proved against the `Curation` function that specifies them
  (`Merged`, `MergeAllSpec`, `FoldMerge`, `PopAppend`, `WithType`).
  `AutoAssign` is stated against the predicate `FirstMinimizer`, which the
  `Curation` method `SelectNearest` establishes. The save prompt and the job handlers state their whole
  new state field by field. Every method preserves `Valid()`, which says
  the open session is well formed. With no session open, a handler that
  reaches `self.backend.sessions` raises AttributeError and changes nothing,
  and the model returns that as its outcome.

Where the code behaves surprisingly, the model keeps the code's behaviour:

- Auto-assignment goes through the `means` dictionary (line 139), which
  holds every group except "Unassigned" and "Artifacts" (filled at lines
  132-134). Its iteration order is unspecified. Ties go to the first group in
  that order, so the order is a parameter.
- Merge-all does not exclude "Unassigned" and "Artifacts" by name. They stay
  untouched only because `int()` rejects both names, and
  `MergeAllKeepsReserved` proves that this holds.
- When auto-assignment has no candidate group, the handler crashes on
  `'Moving to ' + None`. The model reports this as a `TypeError` outcome.
- `move` pops rows one at a time. Each pop shifts the rows after it, so
  selecting rows 0 and 1 moves the first and the third cluster.
  `PopAppendShiftsRows` shows this case, and the model keeps the
  as-written behaviour.

## Model

| member | source | states |
|---|---|---|
| Curation.Merged | combinato/guisort/sorter.py:407-416 | merging src into tgt empties src and appends its clusters, in order, to tgt; merging a group into itself leaves it as it was; no other group and no key changes |
| Curation.MergedConserves | combinato/guisort/sorter.py:407-414 | a merge neither creates nor loses clusters: the multiset union of the two groups is unchanged |
| Curation.MergedTwice | combinato/guisort/sorter.py:407-414 | merging the same pair again changes nothing more (merging is idempotent) |
| Sorter.SpikeSorter.MergeGroups | combinato/guisort/sorter.py:407-416 | updates the groups to `Merged` of the old groups, keeps the session well formed and sets the dirty flag; with no session it raises AttributeError and changes nothing |
| Curation.FoldMerge | combinato/guisort/sorter.py:399-405 | merging in turn every name that the selector accepts into the target keeps the set of group names |
| Curation.MergeAllSpec | combinato/guisort/sorter.py:387-405 | merge-all keeps the group names, and with three or fewer groups it changes nothing |
| Curation.FoldMergeEffect | combinato/guisort/sorter.py:399-405 | for distinct names that do not include the target, the target ends with its old clusters followed by the selected groups' clusters in order; each selected group is empty; every other group is unchanged |
| Curation.MergeAllEffect | combinato/guisort/sorter.py:387-405 | with more than three groups, the first name in sorted order receives, in sorted order, the clusters of every later group whose name `int()` accepts; those groups become empty; all others are unchanged |
| Curation.MergeAllKeepsReserved | combinato/guisort/sorter.py:387-405 | merge-all never changes "Unassigned" or "Artifacts", whichever of them comes first in sorted order |
| Sorter.SpikeSorter.MergeAll | combinato/guisort/sorter.py:387-405 | works through the group names sorted, leaves the groups equal to `MergeAllSpec` of them, and sets the dirty flag exactly when some group was merged; with no session it raises AttributeError and changes nothing |
| Sorter.SpikeSorter.MergeNumericInto | combinato/guisort/sorter.py:399-405 | the merge loop yields `FoldMerge` of the old groups with `int()` as the selector; dirty becomes set iff some name parses |
| PyBuiltins.StrLess | combinato/guisort/sorter.py:392 | the order `sorted` uses on names: a name never sorts before itself, and a proper prefix sorts before the longer name |
| PyBuiltins.StrLessIrreflexive | combinato/guisort/sorter.py:392 | no name sorts before itself |
| PyBuiltins.StrLessTransitive | combinato/guisort/sorter.py:392 | string order is transitive |
| PyBuiltins.StrLessTotal | combinato/guisort/sorter.py:392 | any two distinct names are ordered one way or the other |
| PyBuiltins.MinName | combinato/guisort/sorter.py:392 | returns the member of a non-empty name set that sorts before all others |
| PyBuiltins.SortNames | combinato/guisort/sorter.py:392 | `sorted(groups.keys())` lists each name exactly once, in strictly increasing order |
| PyBuiltins.ParsesAsInt | combinato/guisort/sorter.py:402 | `int(name)` accepts whitespace, an optional sign, whitespace, decimal digits and whitespace, and nothing else; a name it accepts contains a digit |
| PyBuiltins.SpaceAfterSignParses | combinato/guisort/sorter.py:402 | `int()` accepts "- 5" and " +7 " and rejects "5 5" and "-" |
| PyBuiltins.TrimLeftDropsSpaces | combinato/guisort/sorter.py:402 | `int()` skips leading whitespace: the trimmed name is a suffix, and everything cut off is whitespace |
| PyBuiltins.TrimRightKeepsPrefix | combinato/guisort/sorter.py:402 | trimming trailing whitespace keeps a prefix of the name |
| PyBuiltins.NumericSortsBeforeLetters | combinato/guisort/sorter.py:392-402 | a name `int()` accepts sorts before any name that starts with a letter |
| PyBuiltins.LetterNameIsNotInt | combinato/guisort/sorter.py:400-405 | `int()` rejects a name with no whitespace at either end that starts with a non-digit other than a sign, so merge-all skips it |
| Curation.PopAppend | combinato/guisort/sorter.py:537-550 | popping and appending the selected rows keeps the set of group names |
| Curation.PopAppendConserves | combinato/guisort/sorter.py:537-550 | a move neither creates nor loses clusters, even when it stops at a bad row; no third group changes |
| Curation.PopAppendSucceeds | combinato/guisort/sorter.py:543-545 | the move raises no error iff each row, shifted by the earlier pops, is inside the source list |
| Curation.PopAppendAppends | combinato/guisort/sorter.py:543-545 | a complete move into another group appends exactly one cluster per row after the group's old clusters and removes one per row from the source |
| Curation.PopAppendShiftsRows | combinato/guisort/sorter.py:543-545 | selecting rows 0 and 1 of [10, 11, 12] moves clusters 10 and 12, because the first pop shifts the list |
| Sorter.SpikeSorter.Move | combinato/guisort/sorter.py:537-550 | sets the dirty flag first, then leaves the groups equal to `PopAppend`; raises IndexError exactly when `PopAppend` fails; with no session it raises AttributeError and changes nothing |
| Sorter.SpikeSorter.MakeArtifact | combinato/guisort/sorter.py:464-468 | moves the selected clusters of the shown group into "Artifacts", or raises KeyError and changes nothing when that group is missing; with no session it raises AttributeError and changes nothing |
| Curation.WithType | combinato/guisort/sorter.py:508-514 | setting a group's type changes only that group's type in the id view; ids and names stay |
| Sorter.SpikeSorter.SaveType | combinato/guisort/sorter.py:508-514 | gives the shown group the new type and sets the dirty flag, or raises KeyError and changes nothing when no group has that name; with no session it raises AttributeError and changes nothing |
| Curation.SelectNearest | combinato/guisort/sorter.py:130-144 | returns no group iff `order` lists no group other than the shown one and the two reserved groups; otherwise it returns the first candidate in `order` at minimal distance |
| Curation.FirstMinimizerUnique | combinato/guisort/sorter.py:136-144 | the first minimiser is unique, so ties are settled by iteration order |
| Sorter.SpikeSorter.AutoAssign | combinato/guisort/sorter.py:110-147 | with `order` listing every group except the reserved ones, once: with no backend or no selection it does nothing; a missing group raises KeyError and a bad first row raises IndexError; when the session has no group but the shown one and the reserved ones it raises TypeError; otherwise it moves the selection to the first nearest candidate for the first selected cluster, and raises IndexError exactly when that move hits a bad row |
| Sorter.SpikeSorter.ConfirmSave | combinato/guisort/sorter.py:427-439 | on yes with a successful save the session is recorded as saved and is no longer dirty; a failing save raises and leaves the flag and the last save as they were; on no nothing changes; yes with no session raises AttributeError and changes nothing |
| Sorter.SpikeSorter.CloseIfDirty | combinato/guisort/sorter.py:210-216 | a dirty session prompts to save and the backend is dropped whatever the answer and whether or not the save succeeded; only a successful save records the snapshot; a clean session is kept |
| PyBuiltins.PyIndex | combinato/guisort/sorter.py:218 | `job_names[i]` succeeds iff -n <= i < n, and a negative index counts from the end |
| Sorter.SpikeSorter.OpenJob | combinato/guisort/sorter.py:206-233 | after the save prompt it opens job i of the list, clean, records i as the current job and keeps the job list; an index outside the list raises IndexError, and a failing backend load raises; after either error the current job and whatever session survived the prompt stay |
| Sorter.SpikeSorter.NextJob | combinato/guisort/sorter.py:254-263 | when current_job + 1 is below the list length it does what open_job(current_job + 1) does, including Python indexing from a negative index, the save prompt, IndexError and a failing load; otherwise nothing changes; the job list and label are kept, and a current job inside the list stays inside |
| Sorter.SpikeSorter.OpenJobList | combinato/guisort/sorter.py:283-324 | after the save prompt and an accepted dialog it stores the job list and label and opens job 0; an empty list raises IndexError and a failing load raises, each keeping the current job and the surviving session; a declined dialog keeps the job list, the label and the session state after the prompt |
| Sorter.SpikeSorter.constructor | combinato/guisort/sorter.py:38-42 | a new window has no backend (so no session), nothing unsaved and no opened job |
| Selectors.NextGroupIndex | combinato/guisort/sorter.py:470-481 | from any index in the combo box, next-group lands inside the box; an index past the end is left alone |
| Selectors.RotatedSplits | combinato/guisort/sorter.py:470-481 | a run of next-group steps can be split into two consecutive runs |
| Selectors.RotatedSteps | combinato/guisort/sorter.py:470-481 | before wrapping, k steps advance the index by k |
| Selectors.RotationCycles | combinato/guisort/sorter.py:470-481 | n next-group steps over n groups come back to the starting group |
| Selectors.RotationVisitsOthersFirst | combinato/guisort/sorter.py:470-481 | fewer than n steps never return to the starting group, so every group is visited once per cycle |
| Selectors.ButtonFor | combinato/guisort/sorter.py:494-506 | multi-unit selects the multi button, single-unit the single button, artifact and unclassified the artifact button; any other type raises |
| Selectors.ButtonRoundTrip | combinato/guisort/sorter.py:494-535 | showing a group and saving the type of the button it checks gives back the group's type, except that an unclassified group comes back as an artifact |
| Selectors.TypeSavedBy | combinato/guisort/sorter.py:516-535 | the type each button saves shows that same button again, and is never "unclassified" or undefined |
| Selectors.AssignPlotIndex | combinato/guisort/sorter.py:617-623 | the assignment plot lists, in increasing id order, exactly the groups whose type is neither artifact nor unclassified |
| Selectors.PlotFollowsSavedType | combinato/guisort/sorter.py:508-514 | after save_type a group is plotted iff its new type is plotted, and no other group changes |
| PyBuiltins.SortedIds | combinato/guisort/sorter.py:558 | sorting the ids lists each id exactly once, in increasing order |
| Selectors.NamesInIdOrder | combinato/guisort/sorter.py:552-562 | the group list has one entry per id |
| Selectors.NamesInIdOrderAscending | combinato/guisort/sorter.py:558-560 | of any two entries of the group list, the earlier one belongs to the smaller id |
| Selectors.NamesInIdOrderDistinct | combinato/guisort/sorter.py:552-562 | in a well-formed session no name appears twice in the group list |
| Selectors.NamesInIdOrderShowsGroups | combinato/guisort/sorter.py:552-562 | every entry of the group list is a group of the session |
| Selectors.NamesInIdOrderShowsEveryGroup | combinato/guisort/sorter.py:552-562 | every group of the session appears in the group list |
| Selectors.FindSetIndex | combinato/guisort/sorter.py:552-566 | finds the previously selected name iff it is listed, and returns its last position in the list |
| Selectors.Diff | combinato/guisort/sorter.py:456 | `np.diff` has one element fewer (none for an empty list), each one the gap between neighbouring spike times |
| Selectors.Below | combinato/guisort/sorter.py:457-458 | the mask keeps every element below the bound with its repeats, and no other element |
| Selectors.BelowAppend | combinato/guisort/sorter.py:457-458 | the mask keeps the order: masking a concatenation concatenates the masked parts |
| Selectors.ShortIntervals | combinato/guisort/sorter.py:456-458 | the plotted intervals are fewer than the spike times, all below the bound, and include every neighbouring gap below the bound |
| Selectors.ShortIntervalsAreIntervals | combinato/guisort/sorter.py:456-458 | a plotted value is exactly a gap between neighbouring spike times that is below the bound |
| Selectors.ShortIntervalsNonNegative | combinato/guisort/sorter.py:456-458 | for sorted spike times every plotted interval is non-negative |

## Left out

- The Qt widgets, figures, plots, tab switching and the file dialogs
  (`onclick`, `actionGotoJob_triggered`, `actionOpen_triggered`,
  `actionSelectSession`) are not modelled. The model keeps what these
  handlers change in the session and job state. The combo box and the list
  selection become parameters (`current`, `rows`).
- Backend loading, `sessions.save()`, the log file and the clock are I/O.
  - A job's loaded session is a parameter `loaded`: None when constructing
    the backend raises, otherwise a session assumed to be well formed and
    clean.
  - Whether `sessions.save()` succeeds is a parameter `saved`. A successful
    save records a snapshot in `lastSaved`. A failing one is reported as
    IOError, whatever exception the backend actually raises.
  - The answer to the save prompt is a parameter.
  - The job file's lines are a parameter. The model does not read them.
- The time window parsing in `actionOpenJobs_triggered` (start and stop
  times, `np.inf`) and `actionSetTime` are not modelled. They only set values
  passed to the backend.
- `spikeDist` and the mean waveforms (numpy) become an abstract distance
  `distance(cluster, group)`. Floating point, NaN and infinity are out of
  scope, so distances are reals. This is also why the `dist = np.inf` start
  value becomes "no candidate yet". Ruling out NaN hides one effect. The mean
  of an empty group (`np.array([]).mean(0)`, line 134) is NaN, and if
  `spikeDist` passes it through, `d < dist` is false, so the source never
  picks an empty group. With every candidate empty the source then raises
  TypeError, while the model may pick an empty group.
- The iteration order of `means.iteritems()` (line 139) is not modelled.
  The dictionary is filled from `groupsByName.iteritems()` at line 132 with
  the non-reserved groups. Its order is the parameter `order` of
  `AutoAssign`, which must list exactly those groups, once each.
- `newGroup`, `compare_groups`, `updateCompareTab`, `updateGroupInfo`,
  `updateActiveTab` and the radio-button signal wiring are not modelled.
  They only display state or dispatch to `save_type`, which is modelled.
  One effect of that wiring is not captured. `setRadioButtons` checks the
  artifact button for an unclassified group. The button's `toggled` signal
  is connected to `saveTypeArti` (lines 80-82), so showing such a group can
  retype it to artifact and set the dirty flag. `Selectors.ButtonRoundTrip`
  states the type it ends with.
- `PyBuiltins.ParsesAsInt` covers `int()` on byte-string names: ASCII
  whitespace and decimal digits. It leaves out `unicode` names, whose
  non-ASCII digits and whitespace `int()` also accepts. Digit strings of any
  length are accepted. This matches the source, where a value that overflows
  a C long falls back to `long` parsing.
- `Curation.PopAppendConserves` states conservation for the two groups of
  one move, not the ownership of every cluster across a whole session.
- `Sorter.SpikeSorter.AutoAssign` models the means dictionary only through
  `order`. The empty-string check on a group object (`group == ''`) is never
  true, so the model drops it.
- `Selectors.FindSetIndex` uses `None` for the absent `oldtext`, so a call
  without a previous selection finds nothing, as it does in the source.
- `Sorter.SpikeSorter.constructor`: the source creates `job_names`,
  `job_label` and `current_job` only when a job list is opened. The model
  starts them as an empty list, an empty label and 0, and it cannot express
  "attribute not yet set".
- `Sorter.SpikeSorter.MergeNumericInto` requires an open session. It is the
  loop of `actionMergeAll_triggered`, which runs only after line 391 has
  read `self.backend.sessions`. `MergeAll` models the no-session case.
- `Selectors.NextGroupIndex` models the rotation with a session open.
  `on_actionNextGroup_triggered` reads `self.backend.sessions` at line 475,
  before its `self.backend is not None` test at line 476. With no backend
  it therefore raises AttributeError, so that test never takes effect.
- `Sorter.SpikeSorter.CloseIfDirty` follows PyQt4 here. An exception raised
  in the save slot, which is called through `actionSave.trigger()`, is
  reported and does not propagate, so the backend is dropped even when the
  save failed. The write to the log file after a save is assumed to succeed.
- `Selectors.ShortIntervals` (with `Selectors.Diff` and `Selectors.Below`)
  takes spike times and the bound as reals. Subtraction is exact, with no
  float64 rounding and no NaN. A gap at the bound can therefore differ: for
  times 0.1 and 0.3 and bound 0.2, the source computes 0.19999999999999998
  and keeps the interval, while the model computes exactly 0.2 and drops it.

=== FILE: builtins.dfy ===
/**
 * The few Python 2 built-ins the curation handlers rely on: the ordering
 * `sorted` uses on `str` keys and on `int` keys, the test `int(name)`
 * applies to a group name, and list indexing with negative positions.
 */
module PyBuiltins {
  import opened Wrappers

  // ---------------------------------------------------------------------------
  // String ordering: Python compares `str` values character by character,
  // by character code, and a proper prefix sorts first.
  // ---------------------------------------------------------------------------

  predicate StrLess(a: string, b: string): (r: bool)
    ensures r ==> a != b
    ensures |a| < |b| && a == b[..|a|] ==> r
  {
    if |a| == 0 then |b| > 0
    else if |b| == 0 then false
    else if a[0] != b[0] then a[0] < b[0]
    else StrLess(a[1..], b[1..])
  }

  lemma {:induction false} StrLessIrreflexive(a: string)
    ensures !StrLess(a, a)
  {
    if |a| > 0 {
      StrLessIrreflexive(a[1..]);
    }
  }

  lemma {:induction false} StrLessTransitive(a: string, b: string, c: string)
    requires StrLess(a, b) && StrLess(b, c)
    ensures StrLess(a, c)
  {
    if |a| > 0 && |b| > 0 && |c| > 0 && a[0] == b[0] && b[0] == c[0] {
      StrLessTransitive(a[1..], b[1..], c[1..]);
    }
  }

  lemma {:induction false} StrLessTotal(a: string, b: string)
    ensures a == b || StrLess(a, b) || StrLess(b, a)
  {
    if |a| > 0 && |b| > 0 && a[0] == b[0] {
      StrLessTotal(a[1..], b[1..]);
      if a[1..] == b[1..] {
        assert a == [a[0]] + a[1..] && b == [b[0]] + b[1..];
      }
    }
  }

  /** The names appear in strictly ascending order (so also without repeats). */
  predicate SortedNames(names: seq<string>)
  {
    forall i, j :: 0 <= i < j < |names| ==> StrLess(names[i], names[j])
  }

  /** The least element of a non-empty set of names. */
  method MinName(s: set<string>) returns (m: string)
    requires s != {}
    ensures m in s
    ensures forall x :: x in s && x != m ==> StrLess(m, x)
  {
    m :| m in s;
    var rest := s - {m};
    var seen := {m};
    while rest != {}
      invariant m in seen && seen + rest == s && seen !! rest
      invariant forall x :: x in seen && x != m ==> StrLess(m, x)
      decreases rest
    {
      var y :| y in rest;
      if StrLess(y, m) {
        forall x | x in seen && x != y
          ensures StrLess(y, x)
        {
          if x != m {
            StrLessTransitive(y, m, x);
          }
        }
        m := y;
      } else {
        StrLessTotal(y, m);
      }
      seen := seen + {y};
      rest := rest - {y};
    }
  }

  /** `sorted(keys)` on a set of names: every key exactly once, ascending. */
  method SortNames(keys: set<string>) returns (names: seq<string>)
    ensures SortedNames(names)
    ensures forall x :: x in names <==> x in keys
    ensures |names| == |keys|
  {
    names := [];
    var rest := keys;
    while rest != {}
      invariant SortedNames(names)
      invariant forall x :: x in names <==> x in keys && x !in rest
      invariant rest <= keys
      invariant forall x, y :: x in names && y in rest ==> StrLess(x, y)
      invariant |names| + |rest| == |keys|
      decreases rest
    {
      var m := MinName(rest);
      names := names + [m];
      rest := rest - {m};
    }
  }

  // ---------------------------------------------------------------------------
  // Integer ordering, for `sorted` on group ids.
  // ---------------------------------------------------------------------------

  predicate Increasing(s: seq<int>)
  {
    forall i, j :: 0 <= i < j < |s| ==> s[i] < s[j]
  }

  /** A non-empty set of ids has an element (stated for the solver's sake). */
  lemma NonEmptyHasElement(s: set<int>)
    requires s != {}
    ensures exists y :: y in s
  {
    if forall y :: y !in s {
      assert false;
    }
  }

  lemma {:induction false} MinIdExists(s: set<int>)
    requires s != {}
    ensures exists m :: m in s && forall x :: x in s ==> m <= x
  {
    NonEmptyHasElement(s);
    var y :| y in s;
    if s != {y} {
      var rest := s - {y};
      MinIdExists(rest);
      var m :| m in rest && forall x :: x in rest ==> m <= x;
      var least := if y < m then y else m;
      forall x | x in s
        ensures least <= x
      {
        if x != y { assert x in rest; }
      }
    }
  }

  /** `sorted(ids)`: every id of the set exactly once, ascending. */
  ghost function SortedIds(s: set<int>): (r: seq<int>)
    ensures Increasing(r)
    ensures forall x :: x in r <==> x in s
    ensures |r| == |s|
    decreases s
  {
    if s == {} then []
    else
      MinIdExists(s);
      var m :| m in s && forall x :: x in s ==> m <= x;
      [m] + SortedIds(s - {m})
  }

  // ---------------------------------------------------------------------------
  // `int(name)` for a `str` (CPython 2's PyInt_FromString in base 10):
  // leading whitespace, an optional sign, whitespace again (PyOS_strtoul
  // skips it after the sign), at least one decimal digit, then trailing
  // whitespace; anything else raises ValueError.
  // ---------------------------------------------------------------------------

  /** The characters `str.strip` and `int` treat as whitespace: space, \t, \n, \v, \f, \r. */
  predicate IsSpace(c: char)
  {
    c == ' ' || ('\t' <= c <= '\r')
  }

  predicate IsDigit(c: char)
  {
    '0' <= c <= '9'
  }

  function TrimLeft(s: string): string
  {
    if |s| > 0 && IsSpace(s[0]) then TrimLeft(s[1..]) else s
  }

  function TrimRight(s: string): string
  {
    if |s| > 0 && IsSpace(s[|s| - 1]) then TrimRight(s[..|s| - 1]) else s
  }

  /** Stripping the left end drops a prefix of whitespace, and only that. */
  lemma {:induction false} TrimLeftDropsSpaces(s: string)
    ensures |TrimLeft(s)| <= |s| && TrimLeft(s) == s[|s| - |TrimLeft(s)|..]
    ensures forall i :: 0 <= i < |s| - |TrimLeft(s)| ==> IsSpace(s[i])
  {
    if |s| > 0 && IsSpace(s[0]) {
      TrimLeftDropsSpaces(s[1..]);
    }
  }

  /** Stripping the right end keeps a prefix. */
  lemma {:induction false} TrimRightKeepsPrefix(s: string)
    ensures |TrimRight(s)| <= |s| && TrimRight(s) == s[..|TrimRight(s)|]
  {
    if |s| > 0 && IsSpace(s[|s| - 1]) {
      TrimRightKeepsPrefix(s[..|s| - 1]);
    }
  }

  function Strip(s: string): string
  {
    TrimRight(TrimLeft(s))
  }

  predicate AllDigits(s: string)
  {
    forall i :: 0 <= i < |s| ==> IsDigit(s[i])
  }

  /** What follows an optional leading sign, with the whitespace after the sign skipped. */
  function Unsigned(t: string): string
  {
    if |t| > 0 && (t[0] == '+' || t[0] == '-') then TrimLeft(t[1..]) else t
  }

  /** Skipping a sign and the whitespace after it drops a prefix. */
  lemma UnsignedIsSuffix(t: string)
    ensures |Unsigned(t)| <= |t| && Unsigned(t) == t[|t| - |Unsigned(t)|..]
  {
    if |t| > 0 && (t[0] == '+' || t[0] == '-') {
      TrimLeftDropsSpaces(t[1..]);
    }
  }

  /** `int(s)` succeeds (does not raise ValueError); such a name holds a digit. */
  predicate ParsesAsInt(s: string): (r: bool)
    ensures r ==> exists i :: 0 <= i < |s| && IsDigit(s[i])
  {
    var digits := Unsigned(Strip(s));
    var ok := |digits| > 0 && AllDigits(digits);
    if ok then
      TrimLeftDropsSpaces(s);
      TrimRightKeepsPrefix(TrimLeft(s));
      UnsignedIsSuffix(Strip(s));
      var at := |s| - |TrimLeft(s)| + |Strip(s)| - |digits|;
      assert s[at] == digits[0];
      ok
    else
      ok
  }

  /** As in CPython 2, whitespace between the sign and the digits is accepted. */
  lemma SpaceAfterSignParses()
    ensures ParsesAsInt("- 5") && ParsesAsInt(" +7 ")
    ensures !ParsesAsInt("5 5") && !ParsesAsInt("-")
  {
    assert Strip("- 5") == "- 5";
    assert Unsigned("- 5") == "5";
    assert Strip(" +7 ") == "+7";
    assert Strip("5 5") == "5 5";
    assert Strip("-") == "-" && Unsigned("-") == [];
  }

  /**
   * A name `int` accepts starts with whitespace, a sign or a digit, all of
   * which sort before every upper-case letter: such a name sorts before any
   * name that starts with a letter.
   */
  lemma NumericSortsBeforeLetters(s: string, r: string)
    requires ParsesAsInt(s)
    requires |r| > 0 && 'A' <= r[0]
    ensures StrLess(s, r)
  {
    var t := TrimLeft(s);
    TrimLeftDropsSpaces(s);
    TrimRightKeepsPrefix(t);
    if |t| == |s| {
      var u := Strip(s);
      assert u == t[..|u|];
      assert |u| > 0;
      assert s[0] == u[0];
    } else {
      assert IsSpace(s[0]);
    }
  }

  /** A name with no surrounding whitespace, no sign and a non-digit first character is rejected by `int`. */
  lemma LetterNameIsNotInt(s: string)
    requires |s| > 0 && !IsSpace(s[0]) && !IsSpace(s[|s| - 1])
    requires s[0] != '+' && s[0] != '-' && !IsDigit(s[0])
    ensures !ParsesAsInt(s)
  {
    assert TrimLeft(s) == s;
    assert TrimRight(s) == s;
  }

  // ---------------------------------------------------------------------------
  // List indexing: `xs[i]` accepts -len(xs) <= i < len(xs) and raises
  // IndexError otherwise.
  // ---------------------------------------------------------------------------

  function PyIndex(n: nat, i: int): (r: Option<nat>)
    ensures r.Some? <==> -(n as int) <= i < n
    ensures r.Some? ==> r.value < n && (r.value == i || r.value == n + i)
    ensures 0 <= i < n ==> r == Some(i)
  {
    if 0 <= i < n then Some(i)
    else if -(n as int) <= i < 0 then Some(n + i)
    else None
  }
}

=== FILE: curation.dfy ===
/**
 * What the curation commands do to a session's groups, stated as functions
 * over the name view, and the properties they keep: clusters are neither
 * lost nor duplicated by a move or a merge, merge-all leaves the reserved
 * groups alone, and auto-assignment picks the first nearest candidate.
 */
module Curation {
  import opened Wrappers
  import opened PyBuiltins
  import opened Session

  // ---------------------------------------------------------------------------
  // Merging two groups
  // ---------------------------------------------------------------------------

  /**
   * merge_groups(src, tgt): all of src's clusters are removed from it (src
   * stays, empty) and appended, in order, to tgt. Merging a group into
   * itself gives it its clusters back.
   */
  function Merged(g: Groups, src: string, tgt: string): (r: Groups)
    requires src in g && tgt in g
    ensures r.Keys == g.Keys
    ensures src != tgt ==> r[tgt] == g[tgt] + g[src] && r[src] == []
    ensures src == tgt ==> r[src] == g[src]
    ensures forall n :: n in g && n != src && n != tgt ==> r[n] == g[n]
  {
    var removed := g[src];
    var emptied := g[src := []];
    emptied[tgt := emptied[tgt] + removed]
  }

  /** A merge moves clusters and creates or loses none. */
  lemma MergedConserves(g: Groups, src: string, tgt: string)
    requires src in g && tgt in g && src != tgt
    ensures multiset(Merged(g, src, tgt)[src]) + multiset(Merged(g, src, tgt)[tgt])
         == multiset(g[src]) + multiset(g[tgt])
  {
  }

  /** Repeating a merge changes nothing more: the source is already empty. */
  lemma MergedTwice(g: Groups, src: string, tgt: string)
    requires src in g && tgt in g
    ensures Merged(Merged(g, src, tgt), src, tgt) == Merged(g, src, tgt)
  {
    var once := Merged(g, src, tgt);
    var twice := Merged(once, src, tgt);
    if src != tgt {
      assert once[tgt] + once[src] == once[tgt];
    }
    assert forall n :: n in twice ==> twice[n] == once[n];
  }

  // ---------------------------------------------------------------------------
  // Merge-all
  // ---------------------------------------------------------------------------

  /** The clusters of the names in `rest` that `merges` selects, in order. */
  function Gathered(g: Groups, rest: seq<string>, merges: string -> bool): seq<ClusterId>
    requires forall n :: n in rest ==> n in g
  {
    if rest == [] then []
    else (if merges(rest[0]) then g[rest[0]] else []) + Gathered(g, rest[1..], merges)
  }

  /** The merge-all loop: each name of `rest` that `merges` selects is merged into `target`, in order. */
  function FoldMerge(g: Groups, target: string, rest: seq<string>, merges: string -> bool): (r: Groups)
    requires target in g && forall n :: n in rest ==> n in g
    ensures r.Keys == g.Keys
  {
    if rest == [] then g
    else
      var next := if merges(rest[0]) then Merged(g, rest[0], target) else g;
      FoldMerge(next, target, rest[1..], merges)
  }

  /** One step of the fold: the first name of `rest` is merged (or not), then the rest. */
  lemma FoldMergeStep(g: Groups, target: string, rest: seq<string>, merges: string -> bool)
    requires target in g && rest != [] && forall n :: n in rest ==> n in g
    ensures merges(rest[0]) ==>
              FoldMerge(g, target, rest, merges) == FoldMerge(Merged(g, rest[0], target), target, rest[1..], merges)
    ensures !merges(rest[0]) ==>
              FoldMerge(g, target, rest, merges) == FoldMerge(g, target, rest[1..], merges)
  {
  }

  /** actionMergeAll_triggered over the sorted names: nothing with three names or fewer, the fold otherwise. */
  function MergeAllSpec(g: Groups, names: seq<string>): (r: Groups)
    requires forall n :: n in names ==> n in g
    ensures r.Keys == g.Keys
    ensures |names| <= 3 ==> r == g
  {
    if |names| <= 3 then g else FoldMerge(g, names[0], names[1..], ParsesAsInt)
  }

  /** Merge-all calls merge_groups at least once, and so sets the dirty flag. */
  predicate MergeAllMerges(names: seq<string>)
  {
    |names| > 3 && exists n :: n in names[1..] && ParsesAsInt(n)
  }

  predicate Distinct(names: seq<string>)
  {
    forall i, j :: 0 <= i < j < |names| ==> names[i] != names[j]
  }

  lemma {:induction false} GatheredFrame(g: Groups, h: Groups, rest: seq<string>, merges: string -> bool)
    requires forall n :: n in rest ==> n in g && n in h && g[n] == h[n]
    ensures Gathered(g, rest, merges) == Gathered(h, rest, merges)
  {
    if rest != [] {
      GatheredFrame(g, h, rest[1..], merges);
    }
  }

  lemma {:induction false} GatheredNone(g: Groups, rest: seq<string>, merges: string -> bool)
    requires forall n :: n in rest ==> n in g && !merges(n)
    ensures Gathered(g, rest, merges) == []
  {
    if rest != [] {
      GatheredNone(g, rest[1..], merges);
    }
  }

  /**
   * The fold leaves the target holding its old clusters followed by those of
   * every selected name, in order; empties those groups; and leaves every
   * other group as it was.
   */
  lemma {:induction false} FoldMergeEffect(g: Groups, target: string, rest: seq<string>, merges: string -> bool)
    requires target in g && forall n :: n in rest ==> n in g
    requires target !in rest && Distinct(rest)
    ensures FoldMerge(g, target, rest, merges)[target] == g[target] + Gathered(g, rest, merges)
    ensures forall n :: n in rest && merges(n) ==> FoldMerge(g, target, rest, merges)[n] == []
    ensures forall n :: n in g && n != target && !(n in rest && merges(n)) ==>
              FoldMerge(g, target, rest, merges)[n] == g[n]
  {
    if rest != [] {
      var head, tail := rest[0], rest[1..];
      var next := if merges(head) then Merged(g, head, target) else g;
      assert Distinct(tail);
      assert head !in tail;
      assert forall n :: n in tail ==> n in rest;
      FoldMergeEffect(next, target, tail, merges);
      GatheredFrame(next, g, tail, merges);
      var r := FoldMerge(next, target, tail, merges);
      assert r == FoldMerge(g, target, rest, merges);
      assert Gathered(g, rest, merges) == (if merges(head) then g[head] else []) + Gathered(g, tail, merges);
      assert next[target] == g[target] + (if merges(head) then g[head] else []);
      forall n | n in rest && merges(n)
        ensures r[n] == []
      {
        if n == head {
          assert next[head] == [];
        }
      }
      forall n | n in g && n != target && !(n in rest && merges(n))
        ensures r[n] == g[n]
      {
        assert n != head || !merges(head);
        assert next[n] == g[n];
      }
    }
  }

  /**
   * Merge-all over the sorted names of a session: with more than three names,
   * the smallest name ends with its old clusters followed by those of every
   * later name `int` accepts, those groups end empty, and every other group
   * keeps its clusters.
   */
  lemma MergeAllEffect(g: Groups, names: seq<string>)
    requires SortedNames(names) && forall n :: n in names <==> n in g
    requires |names| > 3
    ensures MergeAllSpec(g, names)[names[0]] == g[names[0]] + Gathered(g, names[1..], ParsesAsInt)
    ensures forall n :: n in g && n != names[0] ==>
              MergeAllSpec(g, names)[n] == if ParsesAsInt(n) then [] else g[n]
  {
    var tail := names[1..];
    assert Distinct(tail) by {
      forall i, j | 0 <= i < j < |tail|
        ensures tail[i] != tail[j]
      {
        assert StrLess(names[i + 1], names[j + 1]);
        StrLessIrreflexive(tail[i]);
      }
    }
    assert names[0] !in tail by {
      forall j | 0 <= j < |tail|
        ensures tail[j] != names[0]
      {
        assert StrLess(names[0], names[j + 1]);
        StrLessIrreflexive(names[0]);
      }
    }
    FoldMergeEffect(g, names[0], tail, ParsesAsInt);
    forall n | n in g && n != names[0]
      ensures n in tail
    {
      var k :| 0 <= k < |names| && names[k] == n;
      assert tail[k - 1] == n;
    }
  }

  /** Neither "Unassigned" nor "Artifacts" is ever changed by merge-all. */
  lemma MergeAllKeepsReserved(g: Groups, names: seq<string>, r: string)
    requires SortedNames(names) && forall n :: n in names <==> n in g
    requires Reserved(r) && r in g
    ensures MergeAllSpec(g, names)[r] == g[r]
  {
    LetterNameIsNotInt(r);
    if |names| > 3 {
      MergeAllEffect(g, names);
      if r == names[0] {
        var tail := names[1..];
        forall n | n in tail
          ensures !ParsesAsInt(n)
        {
          var j :| 0 <= j < |tail| && tail[j] == n;
          assert StrLess(r, names[j + 1]);
          if ParsesAsInt(n) {
            NumericSortsBeforeLetters(n, r);
            StrLessTransitive(r, n, r);
            StrLessIrreflexive(r);
          }
        }
        GatheredNone(g, tail, ParsesAsInt);
      }
    }
  }

  // ---------------------------------------------------------------------------
  // Moving selected clusters
  // ---------------------------------------------------------------------------

  /**
   * move(dst) from the list `src`: each selected row in turn is popped from
   * src as it stands at that moment (earlier pops shift later rows) and
   * appended to dst. The flag is false when a row lies past the end of the
   * list (popCluster raises IndexError); the moves made before it stand.
   */
  function PopAppend(g: Groups, dst: string, src: string, rows: seq<nat>): (r: (Groups, bool))
    requires dst in g && src in g
    ensures r.0.Keys == g.Keys
    decreases |rows|
  {
    if rows == [] then (g, true)
    else if rows[0] >= |g[src]| then (g, false)
    else
      var k := rows[0];
      var popped := g[src := g[src][..k] + g[src][k + 1..]];
      PopAppend(popped[dst := popped[dst] + [g[src][k]]], dst, src, rows[1..])
  }

  /**
   * A move creates or loses no cluster: the clusters of src and dst together
   * are the same multiset before and after, whether or not every row was
   * valid, and every other group is unchanged.
   */
  lemma {:induction false} PopAppendConserves(g: Groups, dst: string, src: string, rows: seq<nat>)
    requires dst in g && src in g
    ensures src != dst ==>
              multiset(PopAppend(g, dst, src, rows).0[src]) + multiset(PopAppend(g, dst, src, rows).0[dst])
              == multiset(g[src]) + multiset(g[dst])
    ensures src == dst ==> multiset(PopAppend(g, dst, src, rows).0[src]) == multiset(g[src])
    ensures forall n :: n in g && n != src && n != dst ==> PopAppend(g, dst, src, rows).0[n] == g[n]
  {
    if rows != [] && rows[0] < |g[src]| {
      var k := rows[0];
      var s := g[src];
      var popped := g[src := s[..k] + s[k + 1..]];
      var next := popped[dst := popped[dst] + [s[k]]];
      assert s == s[..k] + [s[k]] + s[k + 1..];
      assert multiset(s) == multiset(s[..k] + s[k + 1..]) + multiset{s[k]};
      PopAppendConserves(next, dst, src, rows[1..]);
    }
  }

  /**
   * Every row is valid when it is popped exactly when each row lies within
   * the source list as shrunk by the rows before it (a move within one group
   * does not shrink it).
   */
  lemma {:induction false} PopAppendSucceeds(g: Groups, dst: string, src: string, rows: seq<nat>)
    requires dst in g && src in g
    ensures PopAppend(g, dst, src, rows).1 <==>
              forall i :: 0 <= i < |rows| ==> rows[i] + (if src == dst then 0 else i) < |g[src]|
  {
    if rows != [] && rows[0] < |g[src]| {
      var k := rows[0];
      var s := g[src];
      var popped := g[src := s[..k] + s[k + 1..]];
      var next := popped[dst := popped[dst] + [s[k]]];
      assert |next[src]| == if src == dst then |s| else |s| - 1;
      PopAppendSucceeds(next, dst, src, rows[1..]);
      var tail := rows[1..];
      if forall i :: 0 <= i < |tail| ==> tail[i] + (if src == dst then 0 else i) < |next[src]| {
        forall i | 0 <= i < |rows|
          ensures rows[i] + (if src == dst then 0 else i) < |s|
        {
          if i > 0 {
            assert rows[i] == tail[i - 1];
          }
        }
      } else {
        var i :| 0 <= i < |tail| && tail[i] + (if src == dst then 0 else i) >= |next[src]|;
        assert rows[i + 1] == tail[i];
      }
    }
  }

  /**
   * On success between two distinct groups, dst keeps its old clusters in
   * front and gains exactly one cluster per selected row.
   */
  lemma {:induction false} PopAppendAppends(g: Groups, dst: string, src: string, rows: seq<nat>)
    requires dst in g && src in g && src != dst
    requires PopAppend(g, dst, src, rows).1
    ensures |PopAppend(g, dst, src, rows).0[dst]| == |g[dst]| + |rows|
    ensures |PopAppend(g, dst, src, rows).0[src]| == |g[src]| - |rows|
    ensures PopAppend(g, dst, src, rows).0[dst][..|g[dst]|] == g[dst]
  {
    if rows != [] {
      var k := rows[0];
      var s := g[src];
      var popped := g[src := s[..k] + s[k + 1..]];
      var next := popped[dst := popped[dst] + [s[k]]];
      PopAppendAppends(next, dst, src, rows[1..]);
      var r := PopAppend(next, dst, src, rows[1..]).0;
      assert r[dst][..|g[dst]|] == r[dst][..|next[dst]|][..|g[dst]|];
    }
  }

  /**
   * Rows shift as clusters are popped: selecting rows 0 and 1 of a group
   * holding clusters 10, 11 and 12 moves clusters 10 and 12, not 10 and 11.
   */
  lemma PopAppendShiftsRows()
    ensures PopAppend(map["1" := [10, 11, 12], "2" := []], "2", "1", [0, 1])
         == (map["1" := [11], "2" := [10, 12]], true)
  {
    var g: Groups := map["1" := [10, 11, 12], "2" := []];
    var g1: Groups := map["1" := [11, 12], "2" := [10]];
    var g2: Groups := map["1" := [11], "2" := [10, 12]];
    assert g["1"][..0] + g["1"][1..] == [11, 12];
    assert g["2"] + [g["1"][0]] == [10];
    assert g["1" := [11, 12]]["2" := [10]] == g1;
    assert PopAppend(g, "2", "1", [0, 1]) == PopAppend(g1, "2", "1", [1]);
    assert g1["1"][..1] + g1["1"][2..] == [11];
    assert g1["2"] + [g1["1"][1]] == [10, 12];
    assert g1["1" := [11]]["2" := [10, 12]] == g2;
    assert PopAppend(g1, "2", "1", [1]) == PopAppend(g2, "2", "1", []);
  }

  // ---------------------------------------------------------------------------
  // Group types
  // ---------------------------------------------------------------------------

  /** save_type on the id view: the group with this name takes the new type; nothing else changes. */
  function WithType(byId: map<int, GroupMeta>, name: string, t: GroupType): (r: map<int, GroupMeta>)
    ensures r.Keys == byId.Keys
    ensures forall id :: id in byId ==> r[id].name == byId[id].name
    ensures forall id :: id in byId ==>
              r[id].groupType == if byId[id].name == name then t else byId[id].groupType
  {
    map id | id in byId :: if byId[id].name == name then byId[id].(groupType := t) else byId[id]
  }

  // ---------------------------------------------------------------------------
  // Auto-assignment
  // ---------------------------------------------------------------------------

  /** A group auto-assignment may move to: not reserved, and not the current group. */
  predicate Candidate(name: string, current: string)
  {
    !Reserved(name) && name != current
  }

  /**
   * `order[k]` is what the auto-assign loop picks: a candidate whose distance
   * is no larger than any candidate's, and strictly smaller than that of
   * every candidate before it.
   */
  predicate FirstMinimizer(order: seq<string>, current: string, distance: string -> real, k: int)
  {
    && 0 <= k < |order| && Candidate(order[k], current)
    && (forall i :: 0 <= i < |order| && Candidate(order[i], current) ==> distance(order[k]) <= distance(order[i]))
    && (forall i :: 0 <= i < k && Candidate(order[i], current) ==> distance(order[k]) < distance(order[i]))
  }

  /**
   * The minimizer loop of on_actionAutoassign_triggered, over the groups in
   * iteration order: a running minimum that starts at infinity (`None`) and
   * is replaced only on a strictly smaller distance. It ends at `None` exactly
   * when there is no candidate.
   */
  method SelectNearest(order: seq<string>, current: string, distance: string -> real) returns (pick: Option<nat>)
    ensures pick.None? <==> forall i :: 0 <= i < |order| ==> !Candidate(order[i], current)
    ensures pick.Some? ==> FirstMinimizer(order, current, distance, pick.value)
  {
    var dist: Option<real> := None;
    pick := None;
    for j := 0 to |order|
      invariant pick.None? <==> dist.None?
      invariant pick.None? <==> forall i :: 0 <= i < j ==> !Candidate(order[i], current)
      invariant pick.Some? ==> FirstMinimizer(order[..j], current, distance, pick.value)
      invariant pick.Some? ==> dist.value == distance(order[pick.value])
    {
      if Candidate(order[j], current) {
        var d := distance(order[j]);
        if dist.None? || d < dist.value {
          dist := Some(d);
          pick := Some(j);
        }
      }
    }
    assert order[..|order|] == order;
  }

  /** The pick is determined by the order and the distances: two first minimizers coincide. */
  lemma FirstMinimizerUnique(order: seq<string>, current: string, distance: string -> real, k: int, m: int)
    requires FirstMinimizer(order, current, distance, k)
    requires FirstMinimizer(order, current, distance, m)
    ensures k == m
  {
  }
}

=== FILE: selectors.dfy ===
/**
 * The read-only selections the window makes from a session: which group
 * the group box shows next, which radio button shows a type, which groups
 * the assignment plot draws, the group list and the selection kept across
 * a refresh, and the inter-spike intervals shown for a cluster.
 */
module Selectors {
  import opened Wrappers
  import opened PyBuiltins
  import opened Session
  import opened Curation

  // ---------------------------------------------------------------------------
  // Rotating through the groups
  // ---------------------------------------------------------------------------

  /**
   * on_actionNextGroup_triggered: the index the group box moves to from
   * `index` among `n` groups. It steps forward, wraps from the last group to
   * the first, and leaves an index beyond the list alone. From any position
   * of the box (-1 when nothing is selected) it lands inside the list.
   */
  function NextGroupIndex(index: int, n: nat): (r: int)
    ensures n > 0 && -1 <= index < n ==> 0 <= r < n
    ensures index + 1 == n ==> r == 0
    ensures index + 1 > n ==> r == index
  {
    if index + 1 < n then index + 1
    else if index + 1 == n then 0
    else index
  }

  /** The index after `k` presses of the next-group shortcut. */
  function Rotated(index: int, n: nat, k: nat): int
  {
    if k == 0 then index else NextGroupIndex(Rotated(index, n, k - 1), n)
  }

  lemma {:induction false} RotatedSplits(index: int, n: nat, a: nat, b: nat)
    ensures Rotated(index, n, a + b) == Rotated(Rotated(index, n, a), n, b)
  {
    if b > 0 {
      RotatedSplits(index, n, a, b - 1);
    }
  }

  lemma {:induction false} RotatedSteps(index: int, n: nat, k: nat)
    requires 0 <= index && index + k < n
    ensures Rotated(index, n, k) == index + k
  {
    if k > 0 {
      RotatedSteps(index, n, k - 1);
    }
  }

  /** Pressing next-group once per group brings the box back to where it started. */
  lemma RotationCycles(index: int, n: nat)
    requires 0 <= index < n
    ensures Rotated(index, n, n) == index
  {
    RotatedSteps(index, n, n - 1 - index);
    assert Rotated(index, n, n - index) == 0;
    RotatedSteps(0, n, index);
    RotatedSplits(index, n, n - index, index);
  }

  /** ... and not before: fewer presses than there are groups never return to the start. */
  lemma RotationVisitsOthersFirst(index: int, n: nat, k: nat)
    requires 0 <= index < n && 0 < k < n
    ensures Rotated(index, n, k) != index
  {
    if index + k < n {
      RotatedSteps(index, n, k);
    } else {
      RotatedSteps(index, n, n - 1 - index);
      assert Rotated(index, n, n - index) == 0;
      RotatedSteps(0, n, k - (n - index));
      RotatedSplits(index, n, n - index, k - (n - index));
    }
  }

  // ---------------------------------------------------------------------------
  // Radio buttons and group types
  // ---------------------------------------------------------------------------

  datatype RadioButton = MultiButton | SingleButton | ArtifactButton

  /**
   * setRadioButtons: the button that shows a group's type. Artifact and
   * unclassified groups share the artifact button; any other value has no
   * button (`None`: the source raises a Warning).
   */
  function ButtonFor(t: GroupType): (r: Option<RadioButton>)
    ensures r.None? <==> t.Undefined?
    ensures r == Some(ArtifactButton) <==> t == TypeArt || t == TypeNo
    ensures r == Some(MultiButton) <==> t == TypeMu
    ensures r == Some(SingleButton) <==> t == TypeSu
  {
    match t
    case TypeMu => Some(MultiButton)
    case TypeArt | TypeNo => Some(ArtifactButton)
    case TypeSu => Some(SingleButton)
    case Undefined(_) => None
  }

  /**
   * saveTypeMU, saveTypeSU and saveTypeArti: the type a checked button saves.
   * The button shown for that type is the button itself.
   */
  function TypeSavedBy(b: RadioButton): (t: GroupType)
    ensures ButtonFor(t) == Some(b)
    ensures t != TypeNo && !t.Undefined?
  {
    match b
    case MultiButton => TypeMu
    case SingleButton => TypeSu
    case ArtifactButton => TypeArt
  }

  /**
   * Showing a group checks its button, and checking a button saves that
   * button's type. The round trip is the identity for every type a button
   * saves, but an unclassified group comes back as an artifact.
   */
  lemma ButtonRoundTrip(t: GroupType)
    requires !t.Undefined?
    ensures TypeSavedBy(ButtonFor(t).value) == (if t == TypeNo then TypeArt else t)
  {
  }

  // ---------------------------------------------------------------------------
  // The assignment plot
  // ---------------------------------------------------------------------------

  /** The assignment plot draws every group that is neither artifact nor unclassified. */
  predicate Plotted(t: GroupType)
  {
    t != TypeArt && t != TypeNo
  }

  /** updateAssignPlot: the ids of the plotted groups, ascending and each once. */
  ghost function AssignPlotIndex(byId: map<int, GroupMeta>): (r: seq<int>)
    ensures Increasing(r)
    ensures forall id :: id in r <==> id in byId && Plotted(byId[id].groupType)
  {
    SortedIds(set id | id in byId && Plotted(byId[id].groupType))
  }

  /** After save_type, a group is drawn in the assignment plot exactly when its new type is plotted. */
  lemma PlotFollowsSavedType(byId: map<int, GroupMeta>, name: string, t: GroupType, id: int)
    requires id in byId && byId[id].name == name
    ensures id in AssignPlotIndex(WithType(byId, name, t)) <==> Plotted(t)
    ensures forall other :: other in byId && byId[other].name != name ==>
              (other in AssignPlotIndex(WithType(byId, name, t)) <==> other in AssignPlotIndex(byId))
  {
  }

  // ---------------------------------------------------------------------------
  // The group list
  // ---------------------------------------------------------------------------

  /** updateGroupsList: the group names, in ascending order of group id. */
  ghost function NamesInIdOrder(byId: map<int, GroupMeta>): (r: seq<string>)
    ensures |r| == |byId|
  {
    var ids := SortedIds(byId.Keys);
    seq(|ids|, i requires 0 <= i < |ids| => byId[ids[i]].name)
  }

  /** Of any two entries of the group list, the earlier one belongs to the smaller id. */
  lemma NamesInIdOrderAscending(byId: map<int, GroupMeta>, i: int, j: int)
    requires 0 <= i < j < |NamesInIdOrder(byId)|
    ensures exists a, b :: a in byId && b in byId && a < b
              && NamesInIdOrder(byId)[i] == byId[a].name && NamesInIdOrder(byId)[j] == byId[b].name
  {
    var ids := SortedIds(byId.Keys);
    assert ids[i] in byId && ids[j] in byId && ids[i] < ids[j];
    assert NamesInIdOrder(byId)[i] == byId[ids[i]].name && NamesInIdOrder(byId)[j] == byId[ids[j]].name;
  }

  /** In a well-formed session the group list shows no name twice. */
  lemma NamesInIdOrderDistinct(d: SessionData)
    requires WellFormed(d)
    ensures Distinct(NamesInIdOrder(d.byId))
  {
    var ids := SortedIds(d.byId.Keys);
    var names := NamesInIdOrder(d.byId);
    forall i, j | 0 <= i < j < |names|
      ensures names[i] != names[j]
    {
      assert names[i] == d.byId[ids[i]].name && names[j] == d.byId[ids[j]].name;
      assert ids[i] < ids[j];
    }
  }

  /** The group list shows only names of the session's groups. */
  lemma NamesInIdOrderShowsGroups(d: SessionData)
    requires WellFormed(d)
    ensures forall n :: n in NamesInIdOrder(d.byId) ==> n in d.byName
  {
    var ids := SortedIds(d.byId.Keys);
    var names := NamesInIdOrder(d.byId);
    forall k | 0 <= k < |names|
      ensures names[k] in d.byName
    {
      assert names[k] == d.byId[ids[k]].name;
    }
  }

  /** The group list shows every group of a well-formed session. */
  lemma NamesInIdOrderShowsEveryGroup(d: SessionData, n: string)
    requires WellFormed(d) && n in d.byName
    ensures n in NamesInIdOrder(d.byId)
  {
    var ids := SortedIds(d.byId.Keys);
    var names := NamesInIdOrder(d.byId);
    var id :| id in d.byId && d.byId[id].name == n;
    assert id in ids;
    var k :| 0 <= k < |ids| && ids[k] == id;
    assert names[k] == n;
  }

  /**
   * The loop of updateGroupsList that finds the position of the previously
   * shown name: the last position holding it, or none.
   */
  method FindSetIndex(names: seq<string>, oldtext: Option<string>) returns (setindex: Option<nat>)
    ensures setindex.None? <==> forall j :: 0 <= j < |names| ==> Some(names[j]) != oldtext
    ensures setindex.Some? ==> setindex.value < |names| && Some(names[setindex.value]) == oldtext
    ensures setindex.Some? ==> forall j :: setindex.value < j < |names| ==> Some(names[j]) != oldtext
  {
    setindex := None;
    var index := 0;
    while index < |names|
      invariant 0 <= index <= |names|
      invariant setindex.None? <==> forall j :: 0 <= j < index ==> Some(names[j]) != oldtext
      invariant setindex.Some? ==> setindex.value < index && Some(names[setindex.value]) == oldtext
      invariant setindex.Some? ==> forall j :: setindex.value < j < index ==> Some(names[j]) != oldtext
    {
      if Some(names[index]) == oldtext {
        setindex := Some(index);
      }
      index := index + 1;
    }
  }

  // ---------------------------------------------------------------------------
  // Inter-spike intervals
  // ---------------------------------------------------------------------------

  /** np.diff: the successive differences of a sequence of spike times. */
  function Diff(t: seq<real>): (d: seq<real>)
    ensures |d| == if |t| == 0 then 0 else |t| - 1
    ensures forall i :: 0 <= i < |d| ==> d[i] == t[i + 1] - t[i]
  {
    if |t| < 2 then [] else [t[1] - t[0]] + Diff(t[1..])
  }

  /** Boolean indexing `d[d < bound]`: the values below the bound, in order. */
  function Below(d: seq<real>, bound: real): (r: seq<real>)
    ensures forall x :: x in r <==> x in d && x < bound
    ensures forall x :: multiset(r)[x] == if x < bound then multiset(d)[x] else 0
    ensures |r| <= |d|
  {
    if d == [] then []
    else
      assert d == [d[0]] + d[1..];
      (if d[0] < bound then [d[0]] else []) + Below(d[1..], bound)
  }

  /** One step of the mask: the first value, if below the bound, then the mask of the rest. */
  lemma BelowStep(d: seq<real>, bound: real)
    requires d != []
    ensures Below(d, bound) == (if d[0] < bound then [d[0]] else []) + Below(d[1..], bound)
  {
  }

  /** The mask keeps the order of the values: filtering a concatenation filters each part. */
  lemma {:induction false} BelowAppend(a: seq<real>, b: seq<real>, bound: real)
    ensures Below(a + b, bound) == Below(a, bound) + Below(b, bound)
  {
    if a == [] {
      assert a + b == b;
    } else {
      var ab := a + b;
      var head := if a[0] < bound then [a[0]] else [];
      assert ab[0] == a[0] && ab[1..] == a[1..] + b;
      BelowStep(ab, bound);
      BelowStep(a, bound);
      BelowAppend(a[1..], b, bound);
      assert head + (Below(a[1..], bound) + Below(b, bound)) == (head + Below(a[1..], bound)) + Below(b, bound);
    }
  }

  /** on_actionMarkCluster_triggered: the intervals of a cluster shorter than the bound. */
  function ShortIntervals(times: seq<real>, bound: real): (r: seq<real>)
    ensures |r| < |times| || |times| == 0
    ensures forall x :: x in r ==> x < bound
    ensures forall i :: 0 <= i < |times| - 1 && times[i + 1] - times[i] < bound ==> times[i + 1] - times[i] in r
  {
    var d := Diff(times);
    assert forall i :: 0 <= i < |times| - 1 ==> d[i] == times[i + 1] - times[i];
    Below(d, bound)
  }

  /** An interval is shown exactly when it separates two successive spikes and lies below the bound. */
  lemma ShortIntervalsAreIntervals(times: seq<real>, bound: real, x: real)
    ensures x in ShortIntervals(times, bound) <==>
              x < bound && exists i :: 0 <= i < |times| - 1 && times[i + 1] - times[i] == x
  {
    var d := Diff(times);
    if x in d {
      var i :| 0 <= i < |d| && d[i] == x;
      assert times[i + 1] - times[i] == x;
    }
    if exists i :: 0 <= i < |times| - 1 && times[i + 1] - times[i] == x {
      var i :| 0 <= i < |times| - 1 && times[i + 1] - times[i] == x;
      assert d[i] == x;
    }
  }

  /** Spike times in order give intervals that are never negative. */
  lemma ShortIntervalsNonNegative(times: seq<real>, bound: real)
    requires forall i, j :: 0 <= i <= j < |times| ==> times[i] <= times[j]
    ensures forall x :: x in ShortIntervals(times, bound) ==> 0.0 <= x
  {
    forall x | x in ShortIntervals(times, bound)
      ensures 0.0 <= x
    {
      ShortIntervalsAreIntervals(times, bound, x);
    }
  }
}

=== FILE: session.dfy ===
/**
 * The state a curation session holds: groups of clusters, looked up both by
 * name and by numeric id, each group with a clinical type.
 */
module Session {
  /** A cluster of spikes, identified by its cluster number. */
  type ClusterId = nat

  /**
   * A group's clinical type. The four named values are the package's
   * artifact, multi-unit, single-unit and unclassified constants; `Undefined`
   * stands for any other value stored in a group's type field.
   */
  datatype GroupType = TypeArt | TypeMu | TypeSu | TypeNo | Undefined(code: int)

  /** What the id-keyed view knows of a group: its name and its type. */
  datatype GroupMeta = GroupMeta(name: string, groupType: GroupType)

  /** The name-keyed view: each group's clusters, in list order. */
  type Groups = map<string, seq<ClusterId>>

  /** One loaded session: both views of its groups. */
  datatype SessionData = SessionData(byName: Groups, byId: map<int, GroupMeta>)

  /**
   * The exception a handler lets escape, where the source lets one escape.
   * AttributeError is what `self.backend.sessions` raises with no backend;
   * IOError stands for whatever a failing session save or backend load raises.
   */
  datatype PyError = KeyError | IndexError | TypeError | AttributeError | IOError

  /** How a handler ends: normally (including an early `return`) or by raising. */
  datatype Outcome = Ok | Raised(error: PyError)

  const UNASSIGNED: string := "Unassigned"
  const ARTIFACTS: string := "Artifacts"

  /** The two groups every session has and auto-assignment never targets. */
  predicate Reserved(name: string)
  {
    name == UNASSIGNED || name == ARTIFACTS
  }

  /**
   * Both views describe the same groups: every id names a group of the name
   * view, every group of the name view has an id, and no two ids share a name.
   */
  ghost predicate WellFormed(d: SessionData)
  {
    && (forall id :: id in d.byId ==> d.byId[id].name in d.byName)
    && (forall n :: n in d.byName ==> exists id :: id in d.byId && d.byId[id].name == n)
    && (forall i, j :: i in d.byId && j in d.byId && d.byId[i].name == d.byId[j].name ==> i == j)
  }
}

=== FILE: sorter.dfy ===
/**
 * The spike sorter window's curation state and the handlers that change it:
 * merging, merge-all, moving clusters, marking artifacts, auto-assignment,
 * setting a group's type, the save prompt, and opening jobs from a job list.
 */
module Sorter {
  import opened Wrappers
  import opened PyBuiltins
  import opened Session
  import opened Curation

  class SpikeSorter {
    /** A backend with a loaded session is open. */
    var hasSession: bool
    /** The open session's groups by name, and its id view. */
    var groupsByName: Groups
    var groupsById: map<int, GroupMeta>
    /** Unsaved changes exist in the open session. */
    var dirty: bool
    /** What the last confirmed save wrote. */
    var lastSaved: Option<SessionData>
    /** The job list, its sorting label, the index of the open job and that job. */
    var jobNames: seq<string>
    var jobLabel: string
    var currentJob: int
    var openedJob: Option<string>

    function Snapshot(): SessionData
      reads this
    {
      SessionData(groupsByName, groupsById)
    }

    ghost predicate Valid()
      reads this
    {
      hasSession ==> WellFormed(Snapshot())
    }

    /** The index of the open job lies within the job list. */
    ghost predicate JobInRange()
      reads this
    {
      0 <= currentJob < |jobNames|
    }

    constructor ()
      ensures Valid() && !hasSession && !dirty && lastSaved.None?
      ensures jobNames == [] && currentJob == 0 && openedJob.None?
    {
      hasSession := false;
      groupsByName := map[];
      groupsById := map[];
      dirty := false;
      lastSaved := None;
      jobNames := [];
      jobLabel := "";
      currentJob := 0;
      openedJob := None;
    }

    /**
     * merge_groups: move every cluster of `src` to the end of `tgt`, and mark
     * the session dirty. With no session open it raises AttributeError.
     */
    method MergeGroups(src: string, tgt: string) returns (outcome: Outcome)
      requires Valid()
      requires hasSession ==> src in groupsByName && tgt in groupsByName
      modifies this`groupsByName, this`dirty
      ensures Valid()
      ensures !hasSession ==>
                outcome == Raised(AttributeError) && groupsByName == old(groupsByName) && dirty == old(dirty)
      ensures hasSession ==>
                outcome == Ok && dirty && groupsByName == Merged(old(groupsByName), src, tgt)
    {
      if !hasSession {
        return Raised(AttributeError);
      }
      var clusters := groupsByName[src];
      groupsByName := groupsByName[src := []];
      groupsByName := groupsByName[tgt := groupsByName[tgt] + clusters];
      dirty := true;
      outcome := Ok;
    }

    /**
     * actionMergeAll_triggered: sort the group names; with more than three,
     * merge every later name that `int` accepts into the first. Returns the
     * sorted names it worked through. With no session open it raises
     * AttributeError and changes nothing.
     */
    method MergeAll() returns (names: seq<string>, outcome: Outcome)
      requires Valid()
      modifies this`groupsByName, this`dirty
      ensures Valid()
      ensures !hasSession ==>
                && outcome == Raised(AttributeError) && names == []
                && groupsByName == old(groupsByName) && dirty == old(dirty)
      ensures hasSession ==>
                && outcome == Ok
                && SortedNames(names) && (forall n :: n in names <==> n in old(groupsByName))
                && groupsByName == MergeAllSpec(old(groupsByName), names)
                && dirty == (old(dirty) || MergeAllMerges(names))
    {
      if !hasSession {
        return [], Raised(AttributeError);
      }
      outcome := Ok;
      names := SortNames(groupsByName.Keys);
      if |names| > 3 {
        MergeNumericInto(names[0], names[1..]);
      }
    }

    /** The loop of merge-all: merge each name of `rest` that `int` accepts into `target`, in order. */
    method MergeNumericInto(target: string, rest: seq<string>)
      requires Valid() && hasSession
      requires target in groupsByName && forall n :: n in rest ==> n in groupsByName
      modifies this`groupsByName, this`dirty
      ensures Valid()
      ensures groupsByName == FoldMerge(old(groupsByName), target, rest, ParsesAsInt)
      ensures dirty == (old(dirty) || exists n :: n in rest && ParsesAsInt(n))
    {
      ghost var start := groupsByName;
      for i := 0 to |rest|
        invariant Valid() && groupsByName.Keys == start.Keys
        invariant FoldMerge(groupsByName, target, rest[i..], ParsesAsInt)
               == FoldMerge(start, target, rest, ParsesAsInt)
        invariant dirty == (old(dirty) || exists n :: n in rest[..i] && ParsesAsInt(n))
      {
        FoldMergeStep(groupsByName, target, rest[i..], ParsesAsInt);
        assert rest[i..][1..] == rest[i + 1..];
        assert rest[..i + 1] == rest[..i] + [rest[i]];
        if ParsesAsInt(rest[i]) {
          var _ := MergeGroups(rest[i], target);
        }
      }
      assert rest[|rest|..] == [] && rest[..|rest|] == rest;
    }

    /**
     * move: mark the session dirty, then pop each selected row of `src` in
     * turn and append it to `dst`. A row past the end of the shrunk list
     * raises IndexError, leaving the moves before it in place. With no
     * session open, setting the flag raises AttributeError.
     */
    method Move(dst: string, src: string, rows: seq<nat>) returns (outcome: Outcome)
      requires Valid()
      requires hasSession ==> dst in groupsByName && src in groupsByName
      modifies this`groupsByName, this`dirty
      ensures Valid()
      ensures !hasSession ==>
                outcome == Raised(AttributeError) && groupsByName == old(groupsByName) && dirty == old(dirty)
      ensures hasSession ==>
                && dirty
                && groupsByName == PopAppend(old(groupsByName), dst, src, rows).0
                && outcome == if PopAppend(old(groupsByName), dst, src, rows).1 then Ok else Raised(IndexError)
    {
      if !hasSession {
        return Raised(AttributeError);
      }
      dirty := true;
      ghost var start := groupsByName;
      for i := 0 to |rows|
        invariant Valid() && hasSession && dirty && groupsByName.Keys == start.Keys
        invariant PopAppend(groupsByName, dst, src, rows[i..]) == PopAppend(start, dst, src, rows)
      {
        assert rows[i..][1..] == rows[i + 1..];
        var row := rows[i];
        if row >= |groupsByName[src]| {
          return Raised(IndexError);
        }
        var cl := groupsByName[src][row];
        groupsByName := groupsByName[src := groupsByName[src][..row] + groupsByName[src][row + 1..]];
        groupsByName := groupsByName[dst := groupsByName[dst] + [cl]];
      }
      assert rows[|rows|..] == [];
      outcome := Ok;
    }

    /**
     * on_actionMakeArtifact_triggered: move the selected clusters of the shown
     * group to "Artifacts". With no session open, looking the group up raises
     * AttributeError.
     */
    method MakeArtifact(current: string, rows: seq<nat>) returns (outcome: Outcome)
      requires Valid() && (hasSession ==> current in groupsByName)
      modifies this`groupsByName, this`dirty
      ensures Valid()
      ensures !hasSession ==>
                outcome == Raised(AttributeError) && groupsByName == old(groupsByName) && dirty == old(dirty)
      ensures hasSession && ARTIFACTS !in old(groupsByName) ==>
                outcome == Raised(KeyError) && groupsByName == old(groupsByName) && dirty == old(dirty)
      ensures hasSession && ARTIFACTS in old(groupsByName) ==>
                && dirty
                && groupsByName == PopAppend(old(groupsByName), ARTIFACTS, current, rows).0
                && (outcome == Ok <==> PopAppend(old(groupsByName), ARTIFACTS, current, rows).1)
    {
      if !hasSession {
        return Raised(AttributeError);
      }
      if ARTIFACTS !in groupsByName {
        return Raised(KeyError);
      }
      outcome := Move(ARTIFACTS, current, rows);
    }

    /**
     * on_actionAutoassign_triggered: with the first selected cluster of the
     * shown group, pick the first nearest candidate group in `order` and move
     * the selection there. `order` is the iteration order of the `means`
     * dictionary: each group other than the two reserved ones, once.
     * `distance(c, n)` is the spike distance between cluster c's mean
     * waveform and the mean waveform of group n.
     */
    method AutoAssign(current: string, rows: seq<nat>, order: seq<string>, distance: (ClusterId, string) -> real)
      returns (outcome: Outcome)
      requires Valid()
      requires hasSession ==> (forall n :: n in order <==> n in groupsByName && !Reserved(n)) && Distinct(order)
      modifies this`groupsByName, this`dirty
      ensures Valid()
      ensures !hasSession || (current in old(groupsByName) && |rows| == 0) ==>
                outcome == Ok && groupsByName == old(groupsByName) && dirty == old(dirty)
      ensures hasSession && current !in old(groupsByName) ==>
                outcome == Raised(KeyError) && groupsByName == old(groupsByName) && dirty == old(dirty)
      ensures hasSession && current in old(groupsByName) && |rows| > 0 && rows[0] >= |old(groupsByName)[current]| ==>
                outcome == Raised(IndexError) && groupsByName == old(groupsByName) && dirty == old(dirty)
      ensures hasSession && current in old(groupsByName) && |rows| > 0 && rows[0] < |old(groupsByName)[current]|
              && (forall n :: n in old(groupsByName) ==> !Candidate(n, current)) ==>
                outcome == Raised(TypeError) && groupsByName == old(groupsByName) && dirty == old(dirty)
      ensures hasSession && current in old(groupsByName) && |rows| > 0 && rows[0] < |old(groupsByName)[current]|
              && (exists n :: n in old(groupsByName) && Candidate(n, current)) ==>
                var selected := old(groupsByName)[current][rows[0]];
                exists k :: FirstMinimizer(order, current, n => distance(selected, n), k)
                  && dirty
                  && groupsByName == PopAppend(old(groupsByName), order[k], current, rows).0
                  && outcome == if PopAppend(old(groupsByName), order[k], current, rows).1 then Ok else Raised(IndexError)
    {
      if !hasSession {
        return Ok;
      }
      if current !in groupsByName {
        return Raised(KeyError);
      }
      if |rows| == 0 {
        return Ok;
      }
      if rows[0] >= |groupsByName[current]| {
        return Raised(IndexError);
      }
      var selected := groupsByName[current][rows[0]];
      var pick := SelectNearest(order, current, n => distance(selected, n));
      if pick.None? {
        return Raised(TypeError);
      }
      outcome := Move(order[pick.value], current, rows);
    }

    /**
     * save_type: give the shown group a new type and mark the session dirty.
     * With no session open it raises AttributeError.
     */
    method SaveType(current: string, t: GroupType) returns (outcome: Outcome)
      requires Valid()
      modifies this`groupsById, this`dirty
      ensures Valid()
      ensures !hasSession ==>
                outcome == Raised(AttributeError) && groupsById == old(groupsById) && dirty == old(dirty)
      ensures hasSession && current !in groupsByName ==>
                outcome == Raised(KeyError) && groupsById == old(groupsById) && dirty == old(dirty)
      ensures hasSession && current in groupsByName ==>
                outcome == Ok && groupsById == WithType(old(groupsById), current, t) && dirty
    {
      if !hasSession {
        return Raised(AttributeError);
      }
      if current !in groupsByName {
        return Raised(KeyError);
      }
      groupsById := WithType(groupsById, current, t);
      dirty := true;
      outcome := Ok;
      assert forall id :: id in groupsById ==> groupsById[id].name == old(groupsById)[id].name;
    }

    /**
     * on_actionSave_triggered with the prompt's answer: on yes the session is
     * written and no longer dirty; on no nothing changes. `saved` is whether
     * `sessions.save()` succeeds; when it raises, the flag stays set. Saving
     * with no session open raises AttributeError.
     */
    method ConfirmSave(answer: bool, saved: bool) returns (outcome: Outcome)
      requires Valid()
      modifies this`dirty, this`lastSaved
      ensures Valid()
      ensures answer && hasSession && saved ==> outcome == Ok && !dirty && lastSaved == Some(Snapshot())
      ensures answer && hasSession && !saved ==>
                outcome == Raised(IOError) && dirty == old(dirty) && lastSaved == old(lastSaved)
      ensures answer && !hasSession ==>
                outcome == Raised(AttributeError) && dirty == old(dirty) && lastSaved == old(lastSaved)
      ensures !answer ==> outcome == Ok && dirty == old(dirty) && lastSaved == old(lastSaved)
    {
      outcome := Ok;
      if answer {
        if !hasSession {
          return Raised(AttributeError);
        }
        if !saved {
          return Raised(IOError);
        }
        lastSaved := Some(Snapshot());
        dirty := false;
      }
    }

    /**
     * What every handler that opens another session does first: when the
     * open session is dirty, prompt to save it and drop the backend. The
     * prompt runs as a slot through `actionSave.trigger()`, so an error in
     * the save does not stop the backend from being dropped.
     */
    method CloseIfDirty(answer: bool, saved: bool)
      requires Valid()
      modifies this`dirty, this`lastSaved, this`hasSession
      ensures Valid()
      ensures !old(hasSession && dirty) ==>
                hasSession == old(hasSession) && dirty == old(dirty) && lastSaved == old(lastSaved)
      ensures old(hasSession && dirty) ==> !hasSession
      ensures old(hasSession && dirty) && answer && saved ==> lastSaved == Some(old(Snapshot())) && !dirty
      ensures old(hasSession && dirty) && !(answer && saved) ==> lastSaved == old(lastSaved) && dirty
    {
      if hasSession && dirty {
        var _ := ConfirmSave(answer, saved);
        hasSession := false;
      }
    }

    /**
     * open_job: after the save prompt, open job `jobToOpen` of the list
     * (Python indexing: a negative index counts from the end; outside the
     * list, IndexError). `loaded` is the session the backend loads for the
     * job, or None when constructing the backend raises; a freshly loaded
     * session is clean. On either error the current job and whatever
     * backend survived the prompt stay.
     */
    method OpenJob(jobToOpen: int, answer: bool, saved: bool, loaded: Option<SessionData>)
      returns (outcome: Outcome)
      requires Valid() && (loaded.Some? ==> WellFormed(loaded.value))
      modifies this
      ensures Valid()
      ensures jobNames == old(jobNames) && jobLabel == old(jobLabel)
      ensures old(hasSession && dirty) && answer && saved ==> lastSaved == Some(old(Snapshot()))
      ensures !(old(hasSession && dirty) && answer && saved) ==> lastSaved == old(lastSaved)
      ensures PyIndex(|jobNames|, jobToOpen).None? || loaded.None? ==>
                && outcome == (if PyIndex(|jobNames|, jobToOpen).None? then Raised(IndexError) else Raised(IOError))
                && currentJob == old(currentJob) && openedJob == old(openedJob)
                && hasSession == (old(hasSession) && !old(dirty))
                && dirty == (old(dirty) && !(old(hasSession) && answer && saved))
                && Snapshot() == old(Snapshot())
      ensures PyIndex(|jobNames|, jobToOpen).Some? && loaded.Some? ==>
                && outcome == Ok
                && currentJob == jobToOpen
                && openedJob == Some(jobNames[PyIndex(|jobNames|, jobToOpen).value])
                && hasSession && !dirty && Snapshot() == loaded.value
    {
      CloseIfDirty(answer, saved);
      var k := PyIndex(|jobNames|, jobToOpen);
      if k.None? {
        return Raised(IndexError);
      }
      var job := jobNames[k.value];
      if loaded.None? {
        return Raised(IOError);
      }
      groupsByName := loaded.value.byName;
      groupsById := loaded.value.byId;
      dirty := false;
      hasSession := true;
      currentJob := jobToOpen;
      openedJob := Some(job);
      outcome := Ok;
    }

    /** actionNextJob_triggered: open the next job, or report that the last job is open. */
    method NextJob(answer: bool, saved: bool, loaded: Option<SessionData>) returns (outcome: Outcome)
      requires Valid() && (loaded.Some? ==> WellFormed(loaded.value))
      modifies this
      ensures Valid()
      ensures jobNames == old(jobNames) && jobLabel == old(jobLabel)
      ensures old(currentJob) + 1 >= |jobNames| ==>
                && outcome == Ok && currentJob == old(currentJob) && openedJob == old(openedJob)
                && hasSession == old(hasSession) && dirty == old(dirty)
                && Snapshot() == old(Snapshot()) && lastSaved == old(lastSaved)
      ensures old(currentJob) + 1 < |jobNames| ==>
                && (old(hasSession && dirty) && answer && saved ==> lastSaved == Some(old(Snapshot())))
                && (!(old(hasSession && dirty) && answer && saved) ==> lastSaved == old(lastSaved))
      ensures old(currentJob) + 1 < |jobNames| && (old(currentJob) + 1 + |jobNames| < 0 || loaded.None?) ==>
                && outcome == (if old(currentJob) + 1 + |jobNames| < 0 then Raised(IndexError) else Raised(IOError))
                && currentJob == old(currentJob) && openedJob == old(openedJob)
                && hasSession == (old(hasSession) && !old(dirty))
                && dirty == (old(dirty) && !(old(hasSession) && answer && saved))
                && Snapshot() == old(Snapshot())
      ensures 0 <= old(currentJob) + 1 + |jobNames| && old(currentJob) + 1 < |jobNames| && loaded.Some? ==>
                && outcome == Ok && currentJob == old(currentJob) + 1
                && openedJob == Some(jobNames[PyIndex(|jobNames|, currentJob).value])
                && hasSession && !dirty && Snapshot() == loaded.value
      ensures old(JobInRange()) ==> JobInRange()
    {
      var cj := currentJob;
      if cj + 1 < |jobNames| {
        outcome := OpenJob(cj + 1, answer, saved, loaded);
      } else {
        outcome := Ok;
      }
    }

    /**
     * actionOpenJobs_triggered: after the save prompt, and when the dialog
     * is accepted, store the job list (its lines, stripped) and its label and
     * open the first job.
     */
    method OpenJobList(answer: bool, saved: bool, accepted: bool, jobs: seq<string>, sortingLabel: string,
                       loaded: Option<SessionData>)
      returns (outcome: Outcome)
      requires Valid() && (loaded.Some? ==> WellFormed(loaded.value))
      modifies this
      ensures Valid()
      ensures old(hasSession && dirty) && answer && saved ==> lastSaved == Some(old(Snapshot()))
      ensures !(old(hasSession && dirty) && answer && saved) ==> lastSaved == old(lastSaved)
      ensures !accepted ==> outcome == Ok && jobNames == old(jobNames) && jobLabel == old(jobLabel)
      ensures accepted ==> jobNames == jobs && jobLabel == sortingLabel
      ensures accepted && jobs == [] ==> outcome == Raised(IndexError)
      ensures accepted && jobs != [] && loaded.None? ==> outcome == Raised(IOError)
      ensures !accepted || jobs == [] || loaded.None? ==>
                && currentJob == old(currentJob) && openedJob == old(openedJob)
                && hasSession == (old(hasSession) && !old(dirty))
                && dirty == (old(dirty) && !(old(hasSession) && answer && saved))
                && Snapshot() == old(Snapshot())
      ensures accepted && jobs != [] && loaded.Some? ==>
                && outcome == Ok && currentJob == 0 && JobInRange() && openedJob == Some(jobs[0])
                && hasSession && !dirty && Snapshot() == loaded.value
    {
      CloseIfDirty(answer, saved);
      if !accepted {
        return Ok;
      }
      jobNames := jobs;
      jobLabel := sortingLabel;
      outcome := OpenJob(0, answer, saved, loaded);
    }
  }
}

=== FILE: wrappers.dfy ===
/** Optional values, used wherever the source has `None`. */
module Wrappers {
  datatype Option<+T> = None | Some(value: T)
}
